=== FILE: README.md ===
# User-record service, modelled in Dafny

This project models the service layer of a small user-management application. Users have a name, an email and an age. The layer comes in two variants that cannot both compile, and both are modelled here:

- **`UserService`**, the console variant. It is a concrete class over a DAO. It reports "not found" as an empty `Optional` or `false`, and it raises `IllegalArgumentException`s with fixed messages.
- **`UserServiceImpl`**, the web-facing variant. It sits over a Spring Data repository. It raises not-found and already-exists exceptions, and it applies a partial update through `UserMapper.updateEntity`.

The persistence layer is an in-memory store: a map from positive ids to `User(name, email, age)` records, plus the next id the identity generator will hand out. Because that counter only grows, `save` always returns a fresh id and ids are never reused. Java references may be null, so every `User` field and every request field that is a reference is an `Option`. Each service operation is a pure function from a store to a `Reply`: the outcome (`Ok`, `NotFound`, `Duplicate`, `Invalid` or `StorageError`, each with its message) together with the store left behind.

The invariant both variants maintain is that no two stored users share an email value. Emails are compared exactly, as `String.equals` does: the code never lowercases or trims them. Every create and update is proved to preserve this invariant. Every failing call leaves the store unchanged. A successful update overwrites only the fields that were supplied non-null, keeps the record's id, and leaves every other record as it was (`UserStore.PatchedOnly`).

The declarative constraints on the two request DTOs are modelled as functions that collect every violated constraint. Each is tied by an if-and-only-if to a field-by-field statement of the rules.

Files:
- `common.dfy`: the `Option` and `Outcome` types.
- `text.dfy`: Java's `trim()`, `String.length()` in UTF-16 code units, and `Long.toString`.
- `store.dfy`: the store and the DAO reads and writes (`UserDaoImpl`), the uniqueness invariant and the partial-update frame.
- `dto.dfy`: the request and response objects and the bean-validation rules.
- `entity.dfy`: the entity, and `mapper.dfy`: `UserMapper`.
- `repository.dfy`: the Spring Data repository calls.
- `user_service.dfy`: the console variant, and `user_service_impl.dfy`: the web-facing variant.
- `variants.dfy`: how the two variants agree.

The console variant throws `IllegalArgumentException` for every failure it raises itself. The model classifies each such failure by its meaning (`Invalid` for empty input, `Duplicate` for an email already in use) and keeps the message word for word.

## Model

| member | source | states |
|---|---|---|
| JavaText.Trim | src/main/java/org/example/userservice/service/UserService.java:23-28 | `trim()` leaves nothing exactly when every char is at most U+0020, and what it leaves starts and ends with a char above U+0020 |
| JavaText.Utf16Length | src/main/java/org/example/userservice/dto/UserRequest.java:9 | the length `@Size` measures counts a single char outside the Basic Multilingual Plane as two units; any string has between one and two units per char, and exactly one per char for BMP-only text |
| JavaText.Utf16LengthConcat | src/main/java/org/example/userservice/dto/UserRequest.java:9 | the length `@Size` measures is additive over concatenation, so with the one-char cases of `Utf16Length` (two units for a char outside the Basic Multilingual Plane, one for a BMP char) it fixes the length of every string |
| JavaText.LongToStringInjective | src/main/java/org/example/userservice/service/UserServiceImpl.java:49 | two ids that render to the same decimal string are equal, so concatenating an id into a message keeps the id recoverable |
| JavaText.ShowNullable | src/main/java/org/example/userservice/service/UserServiceImpl.java:33 | `%s` in `String.format` renders a string as itself and null as "null" |
| UserStore.FindById | src/main/java/org/example/userservice/dao/UserDaoImpl.java:33-47 | `findById` returns the stored record with its id exactly when the id is stored, and empty otherwise |
| UserStore.FindAll | src/main/java/org/example/userservice/dao/UserDaoImpl.java:49-63 | `findAll` returns only stored records, each with its own id, every stored record appears, and ids strictly ascend, so there are no duplicates |
| UserStore.FindByEmail | src/main/java/org/example/userservice/dao/UserDaoImpl.java:100-116 | the exact, case-sensitive email query finds no row exactly when no user has that email. A match is the only user with that email. The non-unique failure of `uniqueResultOptional` happens exactly when two different users share the queried email, so it cannot happen under the uniqueness invariant |
| UserStore.Persist | src/main/java/org/example/userservice/dao/UserDaoImpl.java:16-31 | `save` stores the user under a fresh positive id, returns that id and adds nothing else |
| UserStore.Overwrite | src/main/java/org/example/userservice/dao/UserDaoImpl.java:65-79 | `update` (merge) of a stored user replaces that one record and keeps the same set of ids |
| UserStore.Remove | src/main/java/org/example/userservice/dao/UserDaoImpl.java:81-98 | `delete` removes exactly that id, and deleting an absent id leaves the store unchanged |
| UserStore.OverwriteKeepsEmailsUnique | src/main/java/org/example/userservice/service/UserService.java:52-58 | replacing a record whose email stays the same, or moves to an email nobody uses, keeps emails unique |
| UserStore.InsertKeepsEmailsUnique | src/main/java/org/example/userservice/service/UserService.java:30-36 | adding a record under a new id with an email nobody uses keeps emails unique |
| UserStore.OverwriteIsPatch | src/main/java/org/example/userservice/service/UserService.java:57-63 | overwriting a record with only its supplied fields replaced is a partial update: the id is kept, the other fields and other records are unchanged |
| UserStore.PatchIsDeterministic | src/main/java/org/example/userservice/service/UserMapper.java:19-20 | two stores that are both the same partial update of one store are equal |
| Dto.AgeViolations | src/main/java/org/example/userservice/dto/UserRequest.java:16-17 | an age below 0 is reported as "Age cannot be negative" and one above 120 as "Age cannot be more than 120", each exactly then, both under `age`; no report means 0 to 120 |
| Dto.NameViolations | src/main/java/org/example/userservice/dto/UserRequest.java:8-10 | a create request's name has no violation exactly when it is non-null, not blank and 2 to 100 units long, and every violation is reported under `name` |
| Dto.EmailViolations | src/main/java/org/example/userservice/dto/UserRequest.java:12-14 | a create request's email has no violation exactly when it is non-null, not blank and well-formed |
| Dto.RequestViolations | src/main/java/org/example/userservice/dto/UserRequest.java:7-18 | each field appears among the reported violations exactly when its own rules fail (name not blank and 2 to 100 units, email not blank and well-formed, age 0 to 120), so every failing field is reported. An empty report means a valid request |
| Dto.UpdateRequestViolations | src/main/java/org/example/userservice/dto/UserUpdateRequest.java:7-16 | an absent field never violates anything. A present name must be 2 to 100 units long, blank or not, a present email must be well-formed, and a present age must be 0 to 120 |
| Dto.CreateRulesReported | src/main/java/org/example/userservice/dto/UserRequest.java:8-17 | on a create request each declared message is reported exactly when its rule is broken: blank name, name not 2 to 100 units, blank email, malformed email, age below 0, age above 120 |
| Dto.UpdateRulesReported | src/main/java/org/example/userservice/dto/UserUpdateRequest.java:8-15 | on an update request blankness is never reported, and the size, email-format, minimum-age and maximum-age messages are each reported exactly when a supplied field breaks that rule |
| Dto.AllFailingFieldsReported | src/main/java/org/example/userservice/dto/UserRequest.java:8-17 | an empty name, a non-blank but malformed email and a negative age are reported together: both name rules, the email format and the minimum age, so all three fields are in error |
| Dto.BlankNameOnlyRejectedOnCreate | src/main/java/org/example/userservice/dto/UserUpdateRequest.java:8-9 | a two-space name passes an update request but is rejected as blank in a create request |
| UserMapper.ToEntity | src/main/java/org/example/userservice/service/UserMapper.java:13-15 | `toEntity` leaves `id` and `createdAt` unset and copies name, email and age from the request unchanged |
| UserMapper.ToResponse | src/main/java/org/example/userservice/service/UserMapper.java:17 | `toResponse` carries id, name, email and age of the entity unchanged |
| UserMapper.UpdateEntity | src/main/java/org/example/userservice/service/UserMapper.java:19-20 | a null request field leaves the target field as it was, a non-null one overwrites it, and `id` and `createdAt` never change |
| UserMapper.UpdateEntityIdempotent | src/main/java/org/example/userservice/service/UserMapper.java:19-20 | applying the same partial update twice gives the same entity as applying it once |
| UserMapper.EmptyUpdateIsIdentity | src/main/java/org/example/userservice/service/UserMapper.java:9-10 | an update request whose fields are all null leaves the entity unchanged |
| UserMapper.ResponseEchoesRequest | src/main/java/org/example/userservice/service/UserMapper.java:13-17 | a request mapped to an entity, given an id and mapped to a response, yields that id with the request's name, email and age |
| UserRepository.FindById | src/main/java/org/example/userservice/service/UserServiceImpl.java:48 | `findById` returns an entity exactly for a stored id, carrying that id and the stored record |
| UserRepository.FindAll | src/main/java/org/example/userservice/service/UserServiceImpl.java:58 | `findAll` returns only stored users, each entity carrying its id and record, ascending by id, and every stored user appears |
| UserRepository.ExistsById | src/main/java/org/example/userservice/service/UserServiceImpl.java:89 | `existsById` holds exactly for a stored id |
| UserRepository.ExistsByEmail | src/main/java/org/example/userservice/service/UserServiceImpl.java:31 | `existsByEmail` holds exactly when some stored user's email equals the argument exactly. A null argument matches the users whose email is null |
| UserRepository.DeleteById | src/main/java/org/example/userservice/service/UserServiceImpl.java:92 | `deleteById` removes exactly that id and does not reset the id generator. An absent id changes nothing |
| UserRepository.Save | src/main/java/org/example/userservice/service/UserServiceImpl.java:37-38 | saving an entity with no id inserts it under a fresh positive id. Saving one with an id replaces that record and keeps the id. Either way the returned entity carries the id it is stored under |
| UserService.CreateUser | src/main/java/org/example/userservice/service/UserService.java:22-37 | a null or blank name fails with "Name cannot be empty", whatever the email. Then a null or blank email fails with "Email cannot be empty". The call succeeds exactly when both are present and the email is unused. An email exactly one user has fails with "User with email … already exists". An email two or more users share makes the lookup fail with "Failed to find user by email". A failure leaves the store unchanged. A success adds exactly the given record under a fresh id and returns that id. Email uniqueness is preserved |
| UserService.GetUserById | src/main/java/org/example/userservice/service/UserService.java:39-41 | returns the stored record when the id is stored and empty otherwise, and the store is unchanged |
| UserService.GetAllUsers | src/main/java/org/example/userservice/service/UserService.java:43-45 | returns every stored record exactly once, in ascending id order, and the store is unchanged |
| UserService.UpdateUser | src/main/java/org/example/userservice/service/UserService.java:47-67 | an absent id gives `false` and changes nothing. For a stored id, the call fails exactly when a new, different email is already used. It fails with "Email already exists" when exactly one user has that email, and with "Failed to find user by email" when two or more share it. A failure leaves the store unchanged. Otherwise it returns `true` after a partial update of that one record. Email uniqueness is preserved |
| UserService.DeleteUser | src/main/java/org/example/userservice/service/UserService.java:69-76 | returns whether the id was stored, removes exactly that id, and changes nothing for an absent id |
| UserService.UnchangedEmailNeedsNoLookup | src/main/java/org/example/userservice/service/UserService.java:52-58 | when the email argument is null or equal to the current email, the update succeeds whatever the other users' emails are, so no lookup takes part |
| UserService.DeleteUndoesCreate | src/main/java/org/example/userservice/service/UserService.java:69-76 | deleting the id a successful create returned succeeds and gives back the original records |
| UserService.Lifecycle | src/main/java/org/example/userservice/service/UserService.java:22-76 | for any non-blank name and email, in an empty store create returns id 1 and stores exactly that user. Get then finds it. An update of the name alone returns `true` and keeps the email and age. Delete returns `true` and empties the store, after which get finds nothing |
| UserService.FirstCreateGetsIdOne | src/main/java/org/example/userservice/service/UserService.java:22-37 | the first user created in an empty store with a non-blank name and email gets id 1 and becomes the only record |
| UserService.RenameKeepsOtherFields | src/main/java/org/example/userservice/service/UserService.java:47-66 | for any stored user, an update that supplies only a name returns `true` and overwrites that user's record with the new name, keeping its email and age |
| UserService.NullNameRejectedFirst | src/main/java/org/example/userservice/service/UserService.java:23-25 | a null name, or any name made only of chars at most U+0020, fails with "Name cannot be empty" whatever the email, and the store is unchanged |
| UserServiceImpl.CreateUser | src/main/java/org/example/userservice/service/UserServiceImpl.java:28-42 | fails exactly when the email is already used, with "User with email %s already exists" and the store unchanged. Otherwise it stores exactly the request's fields under a fresh id and returns that user's response. Email uniqueness is preserved |
| UserServiceImpl.GetUserById | src/main/java/org/example/userservice/service/UserServiceImpl.java:46-52 | returns the stored user's response, or not-found "User not found with id: …" for an absent id, and the store is unchanged |
| UserServiceImpl.GetAllUsers | src/main/java/org/example/userservice/service/UserServiceImpl.java:56-61 | returns one response per stored user, each describing that user, in ascending id order and with every stored user present, and the store is unchanged |
| UserServiceImpl.UpdateUser | src/main/java/org/example/userservice/service/UserServiceImpl.java:65-83 | an absent id gives not-found. A non-null email that differs from the current one and is used gives a conflict. Both leave the store unchanged. Otherwise only the supplied fields of that one record change, the id is kept, the response describes the updated record, and email uniqueness is preserved |
| UserServiceImpl.DeleteUser | src/main/java/org/example/userservice/service/UserServiceImpl.java:87-94 | an absent id gives not-found and deletes nothing. Otherwise exactly that id is removed |
| UserServiceImpl.ConflictingOwnerIsAnother | src/main/java/org/example/userservice/service/UserServiceImpl.java:70-76 | when the update's email differs from the current one and is used, its owner is a different user |
| UserServiceImpl.NotFoundNamesId | src/main/java/org/example/userservice/service/UserServiceImpl.java:48-49 | two not-found messages are equal only for the same id |
| Variants.CreatesAgree | src/main/java/org/example/userservice/service/UserServiceImpl.java:28-42 | for a non-blank name and email, both variants accept the same create requests and store the same record under the same id |
| Variants.UpdatesAgree | src/main/java/org/example/userservice/service/UserServiceImpl.java:65-83 | for a stored user under the invariant, both variants reject the same updates, and when both succeed they leave the same store |
| Variants.AbsenceAgrees | src/main/java/org/example/userservice/service/UserServiceImpl.java:67-68 | for an absent id, the console variant's empty result or `false` corresponds to the web-facing variant's not-found, on get, update and delete |
| Variants.DeletesAgree | src/main/java/org/example/userservice/service/UserServiceImpl.java:87-94 | for a stored id, the console variant returns `true`, the web-facing variant succeeds, and both leave the same store |

## Left out

- Console menu (`Main.java`), `Scanner` input and number parsing: these are I/O.
- Hibernate sessions, transactions and rollback (`UserDaoImpl.java`, `HibernateUtil.java`, `DebugSessionFactory.java`): the store stands in for them. A storage failure appears only where the DAO's own contract produces one: a `findByEmail` that matches several rows. Other database failures, which the DAO wraps in `RuntimeException`, are not modelled.
- The HTTP controller and its 400/404/409 status mapping: this is web-layer plumbing. The model does not link bean validation to the service calls. The web-facing service itself accepts any request, and the model keeps that.
- The `@Email` address syntax: Hibernate Validator's built-in pattern is library code, so it stays the parameter `isEmail`.
- Checks that only the console service's tests expect, and `UserService.java` does not perform: name length and character set, email format and the 255-character limit, the null and range checks on age, and the null and positivity checks on id. The model accepts any age and any id, as the code does.
- Case-insensitive email handling: the code compares emails exactly.
- Races between the uniqueness check and the save: the code has no locking, so the store is sequential.
- Logging.
- Null ids (`Long id == null`): the callers never pass one, and Hibernate's handling of a null id is library behaviour the model does not cover.
- Java's integer widths: ages and ids are unbounded integers. The code does no arithmetic on them, so overflow cannot arise.
- `createdAt`: `toEntity` leaves it unset. Filling it in is persistence-layer behaviour the model does not cover, and the store does not keep it, so loaded entities carry none.
- The order of `findAll`: the HQL query has no `ORDER BY`. The model fixes ascending id order, which is the order ids are generated in.
- `UserResponse`, the entity class and the `UserRepository` interface are modelled (`Dto.UserResponse`, `UserEntity.Entity`, module `UserRepository`) from how `UserServiceImpl.java` and the controller tests use them, and the repository's queries from their derived names. `existsByEmail(null)` is taken to match a user whose email is null, as a derived query does.
- Strings are sequences of Unicode scalar values. Lone UTF-16 surrogates cannot be represented, and `String.length()` is modelled by counting a supplementary char as two units.

=== FILE: common.dfy ===
/** Values shared by every part of the model. */
module Common {

  /** A Java reference that may be null (or a java.util.Optional that may be empty). */
  datatype Option<+T> = None | Some(value: T)

  /** What a service call reports: a value, or one of the failure kinds the services raise. */
  datatype Outcome<+T> =
    | Ok(value: T)
    | NotFound(message: string)
    | Duplicate(message: string)
    | Invalid(message: string)
    | StorageError(message: string)
}

=== FILE: dto.dfy ===
/**
 * The request and response objects of the web-facing variant, and the declarative
 * bean-validation constraints on the two request types.
 */
module Dto {
  import opened Common
  import opened JavaText

  /** Body of a create request. `age` is a primitive int, so it is always present. */
  datatype UserRequest = UserRequest(name: Option<string>, email: Option<string>, age: int)

  /** Body of a partial update: every field may be absent. */
  datatype UserUpdateRequest = UserUpdateRequest(name: Option<string>, email: Option<string>, age: Option<int>)

  /** What the service hands back for one user. */
  datatype UserResponse = UserResponse(id: Option<int>, name: Option<string>, email: Option<string>, age: Option<int>)

  datatype Field = NameField | EmailField | AgeField

  /** One violated constraint: the property it is reported under and its message. */
  datatype Violation = Violation(field: Field, message: string)

  const NameBlank := "Name cannot be blank"
  const NameSize := "Name must be between 2 and 100 characters"
  const EmailBlank := "Email cannot be blank"
  const EmailInvalid := "Email should be valid"
  const AgeNegative := "Age cannot be negative"
  const AgeTooHigh := "Age cannot be more than 120"

  const MinNameLength := 2
  const MaxNameLength := 100
  const MinAge := 0
  const MaxAge := 120

  /** @Size(min = 2, max = 100), measured by String.length(); null passes. */
  predicate SizeOk(v: Option<string>) {
    v.None? || MinNameLength <= Utf16Length(v.value) <= MaxNameLength
  }

  /** @Email, with the validator's address syntax supplied as `isEmail`; null passes. */
  predicate EmailOk(v: Option<string>, isEmail: string -> bool) {
    v.None? || isEmail(v.value)
  }

  /** The violation a constraint contributes: none when it holds. */
  function Check(holds: bool, field: Field, message: string): set<Violation> {
    if holds then {} else {Violation(field, message)}
  }

  /** @Min(0) and @Max(120) on an age, each reported with its own message. */
  function AgeViolations(age: int): (vs: set<Violation>)
    ensures AllUnder(vs, AgeField)
    ensures Violation(AgeField, AgeNegative) in vs <==> age < 0
    ensures Violation(AgeField, AgeTooHigh) in vs <==> age > 120
    ensures vs == {} <==> AgeAcceptable(age)
  {
    Check(MinAge <= age, AgeField, AgeNegative) + Check(age <= MaxAge, AgeField, AgeTooHigh)
  }

  /** The properties named by a set of violations. */
  function FieldsInError(vs: set<Violation>): set<Field> {
    set v | v in vs :: v.field
  }

  /** A create request's name: present, not blank, 2 to 100 UTF-16 units long. */
  predicate NameAcceptable(name: Option<string>) {
    name.Some? && !IsBlank(name.value) && 2 <= Utf16Length(name.value) <= 100
  }

  /** A create request's email: present, not blank, well-formed. */
  predicate EmailAcceptable(email: Option<string>, isEmail: string -> bool) {
    email.Some? && !IsBlank(email.value) && isEmail(email.value)
  }

  predicate AgeAcceptable(age: int) {
    0 <= age <= 120
  }

  predicate ValidRequest(r: UserRequest, isEmail: string -> bool) {
    NameAcceptable(r.name) && EmailAcceptable(r.email, isEmail) && AgeAcceptable(r.age)
  }

  /** Only violations reported under `field`. */
  predicate AllUnder(vs: set<Violation>, field: Field) {
    forall v :: v in vs ==> v.field == field
  }

  /** A violation set assembled from one part per property names exactly the properties whose part is non-empty. */
  lemma FieldsOfParts(names: set<Violation>, emails: set<Violation>, ages: set<Violation>)
    requires AllUnder(names, NameField) && AllUnder(emails, EmailField) && AllUnder(ages, AgeField)
    ensures NameField in FieldsInError(names + emails + ages) <==> names != {}
    ensures EmailField in FieldsInError(names + emails + ages) <==> emails != {}
    ensures AgeField in FieldsInError(names + emails + ages) <==> ages != {}
  {
    var vs := names + emails + ages;
    if names != {} { var v :| v in names; assert v.field in FieldsInError(vs); }
    if emails != {} { var v :| v in emails; assert v.field in FieldsInError(vs); }
    if ages != {} { var v :| v in ages; assert v.field in FieldsInError(vs); }
  }

  /** @NotBlank (not null, not empty once trimmed) and @Size on a create request's name. */
  function NameViolations(name: Option<string>): (vs: set<Violation>)
    ensures AllUnder(vs, NameField)
    ensures vs == {} <==> NameAcceptable(name)
  {
    Check(!NullOrTrimsEmpty(name), NameField, NameBlank) + Check(SizeOk(name), NameField, NameSize)
  }

  /** @NotBlank and @Email on a create request's email. */
  function EmailViolations(email: Option<string>, isEmail: string -> bool): (vs: set<Violation>)
    ensures AllUnder(vs, EmailField)
    ensures vs == {} <==> EmailAcceptable(email, isEmail)
  {
    Check(!NullOrTrimsEmpty(email), EmailField, EmailBlank) + Check(EmailOk(email, isEmail), EmailField, EmailInvalid)
  }

  /**
   * Bean validation of a create request: it collects every violated constraint on
   * every field rather than stopping at the first.
   */
  function RequestViolations(r: UserRequest, isEmail: string -> bool): (vs: set<Violation>)
    ensures NameField in FieldsInError(vs) <==> !NameAcceptable(r.name)
    ensures EmailField in FieldsInError(vs) <==> !EmailAcceptable(r.email, isEmail)
    ensures AgeField in FieldsInError(vs) <==> !AgeAcceptable(r.age)
    ensures vs == {} <==> ValidRequest(r, isEmail)
  {
    var names := NameViolations(r.name);
    var emails := EmailViolations(r.email, isEmail);
    var ages := AgeViolations(r.age);
    FieldsOfParts(names, emails, ages);
    names + emails + ages
  }

  /** An update request's name: absent, or 2 to 100 UTF-16 units long (blank allowed). */
  predicate OptionalNameAcceptable(name: Option<string>) {
    name.Some? ==> 2 <= Utf16Length(name.value) <= 100
  }

  predicate OptionalEmailAcceptable(email: Option<string>, isEmail: string -> bool) {
    email.Some? ==> isEmail(email.value)
  }

  predicate OptionalAgeAcceptable(age: Option<int>) {
    age.Some? ==> 0 <= age.value <= 120
  }

  predicate ValidUpdateRequest(r: UserUpdateRequest, isEmail: string -> bool) {
    OptionalNameAcceptable(r.name) && OptionalEmailAcceptable(r.email, isEmail) && OptionalAgeAcceptable(r.age)
  }

  /** Bean validation of an update request: absent fields are never violations. */
  function UpdateRequestViolations(r: UserUpdateRequest, isEmail: string -> bool): (vs: set<Violation>)
    ensures NameField in FieldsInError(vs) <==> !OptionalNameAcceptable(r.name)
    ensures EmailField in FieldsInError(vs) <==> !OptionalEmailAcceptable(r.email, isEmail)
    ensures AgeField in FieldsInError(vs) <==> !OptionalAgeAcceptable(r.age)
    ensures vs == {} <==> ValidUpdateRequest(r, isEmail)
  {
    var names := Check(SizeOk(r.name), NameField, NameSize);
    var emails := Check(EmailOk(r.email, isEmail), EmailField, EmailInvalid);
    var ages := if r.age.Some? then AgeViolations(r.age.value) else {};
    FieldsOfParts(names, emails, ages);
    names + emails + ages
  }

  /**
   * An empty name, a non-blank email the validator rejects (such as "invalid-email") and a
   * negative age are reported together, every broken rule on every field.
   */
  lemma AllFailingFieldsReported(r: UserRequest, isEmail: string -> bool)
    requires r.name == Some("") && r.age < 0
    requires r.email.Some? && !IsBlank(r.email.value) && !isEmail(r.email.value)
    ensures FieldsInError(RequestViolations(r, isEmail)) == {NameField, EmailField, AgeField}
    ensures RequestViolations(r, isEmail)
      == {Violation(NameField, NameBlank), Violation(NameField, NameSize),
          Violation(EmailField, EmailInvalid), Violation(AgeField, AgeNegative)}
  {
    RequestViolationsByField(r, isEmail);
    EmptyNameViolations();
    MalformedEmailViolations(r.email.value, isEmail);
    NegativeAgeViolations(r.age);
    OneOrMorePerField(NameViolations(r.name), EmailViolations(r.email, isEmail), AgeViolations(r.age));
  }

  /** Both name rules, the email format rule and the minimum-age rule together name all three fields. */
  lemma OneOrMorePerField(names: set<Violation>, emails: set<Violation>, ages: set<Violation>)
    requires names == {Violation(NameField, NameBlank), Violation(NameField, NameSize)}
    requires emails == {Violation(EmailField, EmailInvalid)}
    requires ages == {Violation(AgeField, AgeNegative)}
    ensures names + emails + ages
      == {Violation(NameField, NameBlank), Violation(NameField, NameSize),
          Violation(EmailField, EmailInvalid), Violation(AgeField, AgeNegative)}
    ensures FieldsInError(names + emails + ages) == {NameField, EmailField, AgeField}
  {
    var vs := names + emails + ages;
    assert Violation(NameField, NameBlank) in vs && Violation(EmailField, EmailInvalid) in vs && Violation(AgeField, AgeNegative) in vs;
  }

  /** A negative age breaks @Min only. */
  lemma NegativeAgeViolations(age: int)
    requires age < 0
    ensures AgeViolations(age) == {Violation(AgeField, AgeNegative)}
  {
  }

  /** Each rule of a create request is reported, with its own message, exactly when it is broken. */
  lemma CreateRulesReported(r: UserRequest, isEmail: string -> bool)
    ensures Violation(NameField, NameBlank) in RequestViolations(r, isEmail) <==> NullOrBlank(r.name)
    ensures Violation(NameField, NameSize) in RequestViolations(r, isEmail)
      <==> r.name.Some? && !(2 <= Utf16Length(r.name.value) <= 100)
    ensures Violation(EmailField, EmailBlank) in RequestViolations(r, isEmail) <==> NullOrBlank(r.email)
    ensures Violation(EmailField, EmailInvalid) in RequestViolations(r, isEmail)
      <==> r.email.Some? && !isEmail(r.email.value)
    ensures Violation(AgeField, AgeNegative) in RequestViolations(r, isEmail) <==> r.age < 0
    ensures Violation(AgeField, AgeTooHigh) in RequestViolations(r, isEmail) <==> r.age > 120
  {
    RequestViolationsByField(r, isEmail);
  }

  /**
   * Each rule of an update request is reported, with its own message, exactly when a
   * supplied field breaks it; blankness is never reported.
   */
  lemma UpdateRulesReported(r: UserUpdateRequest, isEmail: string -> bool)
    ensures Violation(NameField, NameBlank) !in UpdateRequestViolations(r, isEmail)
    ensures Violation(NameField, NameSize) in UpdateRequestViolations(r, isEmail)
      <==> r.name.Some? && !(2 <= Utf16Length(r.name.value) <= 100)
    ensures Violation(EmailField, EmailBlank) !in UpdateRequestViolations(r, isEmail)
    ensures Violation(EmailField, EmailInvalid) in UpdateRequestViolations(r, isEmail)
      <==> r.email.Some? && !isEmail(r.email.value)
    ensures Violation(AgeField, AgeNegative) in UpdateRequestViolations(r, isEmail) <==> r.age.Some? && r.age.value < 0
    ensures Violation(AgeField, AgeTooHigh) in UpdateRequestViolations(r, isEmail) <==> r.age.Some? && r.age.value > 120
  {
    UpdateRequestViolationsByField(r, isEmail);
  }

  /** An update request's violations are its three properties' violations together. */
  lemma UpdateRequestViolationsByField(r: UserUpdateRequest, isEmail: string -> bool)
    ensures UpdateRequestViolations(r, isEmail)
      == Check(SizeOk(r.name), NameField, NameSize)
       + Check(EmailOk(r.email, isEmail), EmailField, EmailInvalid)
       + (if r.age.Some? then AgeViolations(r.age.value) else {})
  {
  }

  /** A create request's violations are its three properties' violations together. */
  lemma RequestViolationsByField(r: UserRequest, isEmail: string -> bool)
    ensures RequestViolations(r, isEmail) == NameViolations(r.name) + EmailViolations(r.email, isEmail) + AgeViolations(r.age)
  {
  }

  /** An empty name is both blank and too short. */
  lemma EmptyNameViolations()
    ensures NameViolations(Some("")) == {Violation(NameField, NameBlank), Violation(NameField, NameSize)}
  {
    assert Trim("") == [];
    assert Utf16Length("") == 0;
  }

  /** A non-blank email the validator rejects breaks @Email only. */
  lemma MalformedEmailViolations(email: string, isEmail: string -> bool)
    requires !IsBlank(email) && !isEmail(email)
    ensures EmailViolations(Some(email), isEmail) == {Violation(EmailField, EmailInvalid)}
  {
  }

  /** A whitespace-only name of length two passes an update but not a create. */
  lemma BlankNameOnlyRejectedOnCreate(isEmail: string -> bool)
    ensures UpdateRequestViolations(UserUpdateRequest(Some("  "), None, None), isEmail) == {}
    ensures Violation(NameField, NameBlank) in RequestViolations(UserRequest(Some("  "), Some("a@b.c"), 30), isEmail)
  {
    assert Utf16Length("  ") == 2;
    assert IsBlank("  ");
  }
}

=== FILE: entity.dfy ===
/** The persistent entity of the web-facing variant and its link to a stored row. */
module UserEntity {
  import opened Common
  import opened UserStore

  /** A creation timestamp; the model treats it as an opaque value. */
  datatype Timestamp = Timestamp(ticks: int)

  /** The entity object: a generated id (null until saved), a creation time and the user's fields. */
  datatype Entity = Entity(
    id: Option<int>,
    createdAt: Option<Timestamp>,
    name: Option<string>,
    email: Option<string>,
    age: Option<int>)

  /** The fields of an entity that the store keeps. */
  function Record(e: Entity): (u: User)
    ensures u.name == e.name && u.email == e.email && u.age == e.age
  {
    User(e.name, e.email, e.age)
  }

  /** The entity a read hands back for a stored row. */
  function Loaded(row: Row): (e: Entity)
    ensures e.id == Some(row.id) && Record(e) == row.user
  {
    Entity(Some(row.id), None, row.user.name, row.user.email, row.user.age)
  }
}

=== FILE: mapper.dfy ===
/** Conversions between request/response objects and entities. */
module UserMapper {
  import opened Common
  import opened Dto
  import opened UserEntity

  /** toEntity: copies the request's fields and leaves id and createdAt unset for the store to fill. */
  function ToEntity(req: UserRequest): (e: Entity)
    ensures e.id.None? && e.createdAt.None?
    ensures e.name == req.name && e.email == req.email && e.age == Some(req.age)
  {
    Entity(None, None, req.name, req.email, Some(req.age))
  }

  /** toResponse: carries the entity's id, name, email and age unchanged. */
  function ToResponse(e: Entity): (r: UserResponse)
    ensures r.id == e.id && r.name == e.name && r.email == e.email && r.age == e.age
  {
    UserResponse(e.id, e.name, e.email, e.age)
  }

  /** A request field overrides the target's value only when it is non-null. */
  function Pick<T>(supplied: Option<T>, current: Option<T>): (v: Option<T>)
    ensures supplied.Some? ==> v == supplied
    ensures supplied.None? ==> v == current
  {
    if supplied.Some? then supplied else current
  }

  /** updateEntity with null values ignored: supplied fields overwrite, everything else stays. */
  function UpdateEntity(req: UserUpdateRequest, e: Entity): (e': Entity)
    ensures e'.id == e.id && e'.createdAt == e.createdAt
    ensures req.name.None? ==> e'.name == e.name
    ensures req.name.Some? ==> e'.name == req.name
    ensures req.email.None? ==> e'.email == e.email
    ensures req.email.Some? ==> e'.email == req.email
    ensures req.age.None? ==> e'.age == e.age
    ensures req.age.Some? ==> e'.age == req.age
  {
    e.(name := Pick(req.name, e.name), email := Pick(req.email, e.email), age := Pick(req.age, e.age))
  }

  /** Applying the same partial update twice changes nothing the first did not. */
  lemma UpdateEntityIdempotent(req: UserUpdateRequest, e: Entity)
    ensures UpdateEntity(req, UpdateEntity(req, e)) == UpdateEntity(req, e)
  {
  }

  /** A request with every field null leaves the entity as it was. */
  lemma EmptyUpdateIsIdentity(e: Entity)
    ensures UpdateEntity(UserUpdateRequest(None, None, None), e) == e
  {
  }

  /** Once the store has given an entity built from a request an id, its response echoes the request. */
  lemma ResponseEchoesRequest(req: UserRequest, id: int)
    ensures var r := ToResponse(ToEntity(req).(id := Some(id)));
      r == UserResponse(Some(id), req.name, req.email, Some(req.age))
  {
  }
}

=== FILE: repository.dfy ===
/**
 * The Spring Data repository the web-facing variant calls, over the same store.
 * The repository interface is modelled from its derived query names: each query has
 * the meaning its name gives it, so existsByEmail is an exact match on the email value.
 */
module UserRepository {
  import opened Common
  import opened UserStore
  import opened UserEntity

  /** findById: the stored entity, or empty. */
  function FindById(s: Store, id: int): (r: Option<Entity>)
    ensures r.Some? <==> id in s.rows
    ensures r.Some? ==> r.value.id == Some(id) && Record(r.value) == s.rows[id]
  {
    if id in s.rows then Some(Loaded(Row(id, s.rows[id]))) else None
  }

  /** findAll: one entity per stored user, ascending by id. */
  function FindAll(s: Store): (es: seq<Entity>)
    ensures forall i :: 0 <= i < |es| ==> es[i].id.Some? && es[i].id.value in s.rows && Record(es[i]) == s.rows[es[i].id.value]
    ensures forall i, j :: 0 <= i < j < |es| ==> es[i].id.value < es[j].id.value
    ensures forall id :: id in s.rows ==> Loaded(Row(id, s.rows[id])) in es
  {
    LoadedEveryRow(s);
    LoadAll(UserStore.FindAll(s))
  }

  /** Loading the rows findAll returns yields an entity for every stored user. */
  lemma LoadedEveryRow(s: Store)
    ensures forall id :: id in s.rows ==> Loaded(Row(id, s.rows[id])) in LoadAll(UserStore.FindAll(s))
  {
    var rows := UserStore.FindAll(s);
    var es := LoadAll(rows);
    forall id | id in s.rows
      ensures Loaded(Row(id, s.rows[id])) in es
    {
      assert Row(id, s.rows[id]) in rows;
      var k :| 0 <= k < |rows| && rows[k] == Row(id, s.rows[id]);
      assert es[k] == Loaded(Row(id, s.rows[id]));
    }
  }

  /** The entities for a sequence of rows, in the same order. */
  function LoadAll(rows: seq<Row>): (es: seq<Entity>)
    ensures |es| == |rows|
    ensures forall i :: 0 <= i < |es| ==> es[i] == Loaded(rows[i])
  {
    if rows == [] then [] else [Loaded(rows[0])] + LoadAll(rows[1..])
  }

  /** existsById: whether findById would find a user. */
  function ExistsById(s: Store, id: int): (b: bool)
    ensures b <==> id in s.rows
  {
    FindById(s, id).Some?
  }

  /**
   * existsByEmail: whether the query "email = :email" matches any row. A null argument
   * matches the users whose email is null.
   */
  function ExistsByEmail(s: Store, email: Option<string>): (b: bool)
    ensures b <==> exists id :: id in s.rows && s.rows[id].email == email
  {
    var os := OwnersOf(s, email);
    if os == [] then false
    else
      assert s.rows[os[0]].email == email;
      true
  }

  /**
   * save: an entity without an id is inserted under a fresh generated id, one with an
   * id replaces the stored row; the returned entity carries the id it is stored under.
   */
  function Save(s: Store, e: Entity): (r: (Entity, Store))
    requires e.id.Some? ==> e.id.value in s.rows
    ensures r.0.id.Some? && r.1.rows == s.rows[r.0.id.value := Record(e)]
    ensures e.id.Some? ==> r.0.id == e.id && r.1.next == s.next
    ensures e.id.None? ==> 1 <= r.0.id.value && r.0.id.value !in s.rows
    ensures Record(r.0) == Record(e) && r.0.createdAt == e.createdAt
  {
    if e.id.None? then
      var (id, t) := Persist(s, Record(e));
      (e.(id := Some(id)), t)
    else
      (e, Overwrite(s, e.id.value, Record(e)))
  }

  /** deleteById: the user with this id is gone; an absent id changes nothing. */
  function DeleteById(s: Store, id: int): (t: Store)
    ensures t.rows == s.rows - {id} && t.next == s.next
    ensures id !in s.rows ==> t == s
  {
    Remove(s, id)
  }
}

=== FILE: store.dfy ===
/**
 * The persistence collaborator both service variants sit on, as an in-memory table.
 * Its reads and writes follow UserDaoImpl: save hands out a fresh generated id,
 * findByEmail is an exact match that fails when more than one row matches,
 * update overwrites the row with the user's id, delete of an absent id does nothing.
 */
module UserStore {
  import opened Common

  /** One persisted user. The Java fields are references, so each may be null. */
  datatype User = User(name: Option<string>, email: Option<string>, age: Option<int>)

  /** A persisted user together with the id the store assigned it. */
  datatype Row = Row(id: int, user: User)

  /** The rows by id, and the id the identity generator hands out next. */
  datatype Table = Table(rows: map<int, User>, next: int)

  /** Generated ids are positive and every row's id was handed out before `next`. */
  predicate IdsBelowNext(t: Table) {
    1 <= t.next && forall id :: id in t.rows ==> 1 <= id < t.next
  }

  type Store = t: Table | IdsBelowNext(t) witness Table(map[], 1)

  const Empty: Store := Table(map[], 1)

  /** A service call's outcome together with the store it leaves behind. */
  datatype Reply<+T> = Reply(result: Outcome<T>, after: Store)

  /** The invariant the services maintain: no two stored users share an email value. */
  predicate EmailsUnique(s: Store) {
    forall i, j :: i in s.rows && j in s.rows && i != j ==> s.rows[i].email != s.rows[j].email
  }

  /** Some stored user's email equals `email` exactly (String.equals: case-sensitive, no trimming). */
  predicate EmailTaken(s: Store, email: Option<string>) {
    exists id :: id in s.rows && s.rows[id].email == email
  }

  /** The stored ids from `lo` upward, ascending. */
  function IdsFrom(s: Store, lo: int): (ids: seq<int>)
    ensures forall i :: 0 <= i < |ids| ==> ids[i] in s.rows && lo <= ids[i]
    decreases s.next - lo
  {
    if lo >= s.next then []
    else (if lo in s.rows then [lo] else []) + IdsFrom(s, lo + 1)
  }

  /** The enumeration is strictly ascending. */
  lemma {:induction false} IdsFromAscending(s: Store, lo: int)
    ensures Ascending(IdsFrom(s, lo))
    decreases s.next - lo
  {
    if lo < s.next {
      IdsFromAscending(s, lo + 1);
      var ids := IdsFrom(s, lo);
      var rest := IdsFrom(s, lo + 1);
      if lo in s.rows {
        assert ids == [lo] + rest;
        PrependAscending(lo, rest);
      } else {
        assert ids == rest;
      }
    }
  }

  /** Strictly increasing, so also free of duplicates. */
  predicate Ascending(xs: seq<int>) {
    forall i, j :: 0 <= i < j < |xs| ==> xs[i] < xs[j]
  }

  /** Putting a smaller element in front of an ascending sequence keeps it ascending. */
  lemma PrependAscending(x: int, rest: seq<int>)
    requires forall i :: 0 <= i < |rest| ==> x < rest[i]
    requires Ascending(rest)
    ensures Ascending([x] + rest)
  {
    var xs := [x] + rest;
    forall i, j | 0 <= i < j < |xs| ensures xs[i] < xs[j] {
      if i == 0 {
        assert xs[j] == rest[j - 1];
      } else {
        assert xs[i] == rest[i - 1] && xs[j] == rest[j - 1];
      }
    }
  }

  /** The enumeration misses no stored id at or above `lo`. */
  lemma {:induction false} IdsFromComplete(s: Store, lo: int)
    ensures forall id :: id in s.rows && lo <= id ==> id in IdsFrom(s, lo)
    decreases s.next - lo
  {
    if lo < s.next {
      IdsFromComplete(s, lo + 1);
      var ids := IdsFrom(s, lo);
      var rest := IdsFrom(s, lo + 1);
      var head: seq<int> := if lo in s.rows then [lo] else [];
      assert ids == head + rest;
      forall id | id in s.rows && lo <= id ensures id in ids {
        if id == lo {
          assert ids[0] == lo;
        } else {
          assert id in rest;
          var k :| 0 <= k < |rest| && rest[k] == id;
          assert ids[|head| + k] == id;
        }
      }
    }
  }

  /** Every stored id once, in ascending order (the order ids were generated in). */
  function Ids(s: Store): (ids: seq<int>)
    ensures forall i :: 0 <= i < |ids| ==> ids[i] in s.rows
    ensures forall i, j :: 0 <= i < j < |ids| ==> ids[i] < ids[j]
    ensures forall id :: id in s.rows ==> id in ids
  {
    IdsFromAscending(s, 1);
    IdsFromComplete(s, 1);
    IdsFrom(s, 1)
  }

  /** findById: the row stored under `id`, if any. */
  function FindById(s: Store, id: int): (r: Option<Row>)
    ensures r.Some? <==> id in s.rows
    ensures r.Some? ==> r.value == Row(id, s.rows[id])
  {
    if id in s.rows then Some(Row(id, s.rows[id])) else None
  }

  /** findAll: one row per stored user, ascending by id. */
  function FindAll(s: Store): (rs: seq<Row>)
    ensures forall i :: 0 <= i < |rs| ==> rs[i].id in s.rows && rs[i].user == s.rows[rs[i].id]
    ensures forall i, j :: 0 <= i < j < |rs| ==> rs[i].id < rs[j].id
    ensures forall id :: id in s.rows ==> Row(id, s.rows[id]) in rs
  {
    RowsCoverStore(s);
    RowsOf(s, Ids(s))
  }

  /** Reading the row of every stored id yields every stored row. */
  lemma RowsCoverStore(s: Store)
    ensures forall id :: id in s.rows ==> Row(id, s.rows[id]) in RowsOf(s, Ids(s))
  {
    var ids := Ids(s);
    var rs := RowsOf(s, ids);
    forall id | id in s.rows
      ensures Row(id, s.rows[id]) in rs
    {
      assert id in ids;
      var k :| 0 <= k < |ids| && ids[k] == id;
      assert rs[k] == Row(id, s.rows[id]);
    }
  }

  /** The stored rows for the given ids, in the same order. */
  function RowsOf(s: Store, ids: seq<int>): (rs: seq<Row>)
    requires forall i :: 0 <= i < |ids| ==> ids[i] in s.rows
    ensures |rs| == |ids|
    ensures forall i :: 0 <= i < |rs| ==> rs[i] == Row(ids[i], s.rows[ids[i]])
  {
    if ids == [] then [] else [Row(ids[0], s.rows[ids[0]])] + RowsOf(s, ids[1..])
  }

  /** The ids in `ids` whose user has exactly this email, in the same order. */
  function Owners(s: Store, ids: seq<int>, email: Option<string>): (os: seq<int>)
    requires forall i :: 0 <= i < |ids| ==> ids[i] in s.rows
    ensures forall i :: 0 <= i < |os| ==> os[i] in s.rows && s.rows[os[i]].email == email
  {
    if ids == [] then []
    else
      var rest := Owners(s, ids[1..], email);
      if s.rows[ids[0]].email == email then [ids[0]] + rest else rest
  }

  /** No id with the email is skipped. */
  lemma {:induction false} OwnersComplete(s: Store, ids: seq<int>, email: Option<string>)
    requires forall i :: 0 <= i < |ids| ==> ids[i] in s.rows
    ensures forall i :: 0 <= i < |ids| && s.rows[ids[i]].email == email ==> ids[i] in Owners(s, ids, email)
  {
    if ids != [] {
      OwnersComplete(s, ids[1..], email);
      var os := Owners(s, ids, email);
      var rest := Owners(s, ids[1..], email);
      forall i | 0 <= i < |ids| && s.rows[ids[i]].email == email
        ensures ids[i] in os
      {
        if i > 0 {
          assert ids[i] == ids[1..][i - 1];
          assert ids[i] in rest;
        }
      }
    }
  }

  /** Ascending input gives ascending owners, none below the first input id. */
  lemma {:induction false} OwnersAscending(s: Store, ids: seq<int>, email: Option<string>)
    requires forall i :: 0 <= i < |ids| ==> ids[i] in s.rows
    requires Ascending(ids)
    ensures forall i :: 0 <= i < |Owners(s, ids, email)| ==> ids[0] <= Owners(s, ids, email)[i]
    ensures Ascending(Owners(s, ids, email))
  {
    if ids != [] {
      var os := Owners(s, ids, email);
      var rest := Owners(s, ids[1..], email);
      OwnersAscending(s, ids[1..], email);
      assert below: forall i :: 0 <= i < |rest| ==> ids[0] < rest[i] by {
        if |ids| > 1 {
          assert ids[1..][0] == ids[1];
        }
      }
      if s.rows[ids[0]].email == email {
        assert os == [ids[0]] + rest;
        PrependAscending(ids[0], rest);
      } else {
        assert os == rest;
      }
    }
  }

  /** The stored ids whose user has exactly this email, ascending. */
  function OwnersOf(s: Store, email: Option<string>): (os: seq<int>)
    ensures forall i :: 0 <= i < |os| ==> os[i] in s.rows && s.rows[os[i]].email == email
    ensures forall id :: id in s.rows && s.rows[id].email == email ==> id in os
    ensures forall i, j :: 0 <= i < j < |os| ==> os[i] < os[j]
  {
    var ids := Ids(s);
    var os := Owners(s, ids, email);
    OwnersComplete(s, ids, email);
    OwnersAscending(s, ids, email);
    forall id | id in s.rows && s.rows[id].email == email
      ensures id in os
    {
      assert id in ids;
      var k :| 0 <= k < |ids| && ids[k] == id;
      assert ids[k] in os;
    }
    os
  }

  /** When exactly one id owns an email, every user with that email is that one. */
  lemma SoleOwner(s: Store, email: Option<string>, os: seq<int>)
    requires |os| == 1
    requires forall id :: id in s.rows && s.rows[id].email == email ==> id in os
    ensures forall id :: id in s.rows && s.rows[id].email == email ==> id == os[0]
  {
    assert os == [os[0]];
  }

  /** Two different stored users both have this email. */
  predicate SharedEmail(s: Store, email: Option<string>) {
    exists i, j :: i in s.rows && j in s.rows && i != j && s.rows[i].email == email && s.rows[j].email == email
  }

  /** What uniqueResultOptional makes of the rows a query matched. */
  datatype Lookup = NoMatch | Match(row: Row) | NonUnique

  /** findByEmail: the query "email = :email"; more than one matching row is a failure. */
  function FindByEmail(s: Store, email: string): (r: Lookup)
    ensures r.NoMatch? <==> !EmailTaken(s, Some(email))
    ensures r.Match? ==> r.row.id in s.rows && r.row.user == s.rows[r.row.id] && r.row.user.email == Some(email)
    ensures r.Match? ==> forall id :: id in s.rows && s.rows[id].email == Some(email) ==> id == r.row.id
    ensures r.NonUnique? <==> SharedEmail(s, Some(email))
  {
    var os := OwnersOf(s, Some(email));
    if |os| == 0 then NoMatch
    else
      assert s.rows[os[0]].email == Some(email);
      if |os| == 1 then
        SoleOwner(s, Some(email), os);
        Match(Row(os[0], s.rows[os[0]]))
      else
        assert os[0] < os[1];
        assert s.rows[os[1]].email == Some(email);
        NonUnique
  }

  /** save of a new user: stores it under a fresh positive id and returns that id. */
  function Persist(s: Store, u: User): (r: (int, Store))
    ensures 1 <= r.0 && r.0 !in s.rows
    ensures r.1.rows == s.rows[r.0 := u]
  {
    (s.next, Table(s.rows[s.next := u], s.next + 1))
  }

  /** update (merge) of a user that is already stored: replaces that one row. */
  function Overwrite(s: Store, id: int, u: User): (t: Store)
    requires id in s.rows
    ensures t.rows == s.rows[id := u] && t.rows.Keys == s.rows.Keys
  {
    Table(s.rows[id := u], s.next)
  }

  /** delete: removes the row with this id; an absent id leaves the store as it was. */
  function Remove(s: Store, id: int): (t: Store)
    ensures t.rows == s.rows - {id}
    ensures id !in s.rows ==> t == s
  {
    Table(s.rows - {id}, s.next)
  }

  /**
   * `after` differs from `before` only in the record stored under `id`, and there only in
   * the fields supplied non-null: the id stays, and every other record stays as it was.
   */
  predicate PatchedOnly(before: Store, after: Store, id: int, name: Option<string>, email: Option<string>, age: Option<int>)
  {
    && id in before.rows && id in after.rows
    && after.rows.Keys == before.rows.Keys
    && after.next == before.next
    && (forall k :: k in before.rows && k != id ==> after.rows[k] == before.rows[k])
    && (name.Some? ==> after.rows[id].name == name)
    && (name.None? ==> after.rows[id].name == before.rows[id].name)
    && (email.Some? ==> after.rows[id].email == email)
    && (email.None? ==> after.rows[id].email == before.rows[id].email)
    && (age.Some? ==> after.rows[id].age == age)
    && (age.None? ==> after.rows[id].age == before.rows[id].age)
  }

  /** Overwriting a record keeps emails unique when its email stays or moves to an unused value. */
  lemma OverwriteKeepsEmailsUnique(s: Store, id: int, u: User)
    requires id in s.rows
    requires u.email == s.rows[id].email || !EmailTaken(s, u.email)
    ensures EmailsUnique(s) ==> EmailsUnique(Overwrite(s, id, u))
  {
  }

  /** Adding a user under a new id keeps emails unique when its email is unused. */
  lemma InsertKeepsEmailsUnique(s: Store, t: Store, id: int, u: User)
    requires id !in s.rows && t.rows == s.rows[id := u] && !EmailTaken(s, u.email)
    ensures EmailsUnique(s) ==> EmailsUnique(t)
  {
  }

  /** Overwriting record `id` with its supplied fields replaced is exactly a partial update of it. */
  lemma OverwriteIsPatch(s: Store, id: int, name: Option<string>, email: Option<string>, age: Option<int>, u: User)
    requires id in s.rows
    requires u.name == (if name.Some? then name else s.rows[id].name)
    requires u.email == (if email.Some? then email else s.rows[id].email)
    requires u.age == (if age.Some? then age else s.rows[id].age)
    ensures PatchedOnly(s, Overwrite(s, id, u), id, name, email, age)
  {
  }

  /** A partial update determines the resulting store completely. */
  lemma PatchIsDeterministic(s: Store, a: Store, b: Store, id: int, name: Option<string>, email: Option<string>, age: Option<int>)
    requires PatchedOnly(s, a, id, name, email, age) && PatchedOnly(s, b, id, name, email, age)
    ensures a == b
  {
    assert a.rows[id] == b.rows[id];
    assert forall k :: k in a.rows ==> a.rows[k] == b.rows[k];
    assert a.rows == b.rows;
  }
}

=== FILE: text.dfy ===
/** The few java.lang.String behaviours the services and the bean constraints depend on. */
module JavaText {
  import opened Common

  /** String.trim() strips every char whose code is at most U+0020. */
  predicate Trimmable(c: char) {
    c <= ' '
  }

  /** Every char of `s` is one that trim() strips, so trim() leaves nothing. */
  predicate IsBlank(s: string) {
    forall i :: 0 <= i < |s| ==> Trimmable(s[i])
  }

  /** A null reference or a string that is empty after trim(). */
  predicate NullOrBlank(v: Option<string>) {
    v.None? || IsBlank(v.value)
  }

  /** The number of trimmable chars in a row from index `lo` onward. */
  function BlankRunFrom(s: string, lo: nat): (n: nat)
    requires lo <= |s|
    ensures lo + n <= |s|
    ensures forall i :: lo <= i < lo + n ==> Trimmable(s[i])
    ensures lo + n < |s| ==> !Trimmable(s[lo + n])
    decreases |s| - lo
  {
    if lo < |s| && Trimmable(s[lo]) then 1 + BlankRunFrom(s, lo + 1) else 0
  }

  /** The number of trimmable chars in a row ending just before index `hi`. */
  function BlankRunBefore(s: string, hi: nat): (n: nat)
    requires hi <= |s|
    ensures n <= hi
    ensures forall i :: hi - n <= i < hi ==> Trimmable(s[i])
    ensures n < hi ==> !Trimmable(s[hi - n - 1])
  {
    if hi > 0 && Trimmable(s[hi - 1]) then 1 + BlankRunBefore(s, hi - 1) else 0
  }

  /** Drops the leading run of trimmable chars. */
  function TrimStart(s: string): (r: string)
    ensures |r| <= |s| && r == s[|s| - |r|..]
    ensures r != [] ==> !Trimmable(r[0])
    ensures IsBlank(s[..|s| - |r|])
  {
    s[BlankRunFrom(s, 0)..]
  }

  /** Drops the trailing run of trimmable chars. */
  function TrimEnd(s: string): (r: string)
    ensures |r| <= |s| && r == s[..|r|]
    ensures r != [] ==> !Trimmable(r[|r| - 1])
    ensures IsBlank(s[|r|..])
  {
    s[..|s| - BlankRunBefore(s, |s|)]
  }

  /** String.trim(): empty exactly for blank input, otherwise bounded by non-trimmable chars. */
  function Trim(s: string): (r: string)
    ensures |r| <= |s|
    ensures r != [] ==> !Trimmable(r[0]) && !Trimmable(r[|r| - 1])
    ensures r == [] <==> IsBlank(s)
  {
    TrimEnd(TrimStart(s))
  }

  /**
   * `v == null || v.trim().isEmpty()`: the console service's emptiness test, and what
   * @NotBlank rejects; by Trim's contract it agrees with NullOrBlank.
   */
  predicate NullOrTrimsEmpty(v: Option<string>) {
    v.None? || Trim(v.value) == []
  }

  /** Number of UTF-16 code units String.length() counts for one char. */
  function Utf16Units(c: char): nat {
    if c as int > 0xFFFF then 2 else 1
  }

  /** String.length(): a char outside the Basic Multilingual Plane counts twice. */
  function Utf16Length(s: string): (n: nat)
    ensures |s| <= n <= 2 * |s|
    ensures (forall i :: 0 <= i < |s| ==> s[i] as int <= 0xFFFF) ==> n == |s|
    ensures |s| == 1 && s[0] as int > 0xFFFF ==> n == 2
  {
    if s == [] then 0 else Utf16Units(s[0]) + Utf16Length(s[1..])
  }

  /** String.length() of a concatenation is the sum of the parts' lengths. */
  lemma {:induction false} Utf16LengthConcat(a: string, b: string)
    ensures Utf16Length(a + b) == Utf16Length(a) + Utf16Length(b)
  {
    if a == [] {
      assert a + b == b;
    } else {
      assert (a + b)[0] == a[0] && (a + b)[1..] == a[1..] + b;
      Utf16LengthConcat(a[1..], b);
    }
  }

  predicate IsDigit(c: char) {
    '0' <= c <= '9'
  }

  predicate AllDigits(s: string) {
    forall i :: 0 <= i < |s| ==> IsDigit(s[i])
  }

  function DigitChar(d: int): (c: char)
    requires 0 <= d <= 9
    ensures IsDigit(c) && c as int - '0' as int == d
  {
    (d + '0' as int) as char
  }

  /** Decimal digits of a natural number, without leading zeros. */
  function NatToDecimal(n: nat): (s: string)
    ensures s != [] && AllDigits(s)
  {
    if n < 10 then [DigitChar(n)] else NatToDecimal(n / 10) + [DigitChar(n % 10)]
  }

  /** The number a string of decimal digits denotes. */
  function DecimalValue(s: string): nat
    requires AllDigits(s)
  {
    if s == [] then 0 else 10 * DecimalValue(s[..|s| - 1]) + (s[|s| - 1] as int - '0' as int)
  }

  /** Long.toString, as used by string concatenation: a minus sign for negatives, then the digits. */
  function LongToString(n: int): string {
    if n < 0 then "-" + NatToDecimal(-n) else NatToDecimal(n)
  }

  /** String.valueOf on a nullable string, as String.format's %s renders it. */
  function ShowNullable(v: Option<string>): (r: string)
    ensures v.Some? ==> r == v.value
    ensures v.None? ==> r == "null"
  {
    if v.None? then "null" else v.value
  }

  lemma {:induction false} DecimalRoundTrip(n: nat)
    ensures DecimalValue(NatToDecimal(n)) == n
  {
    if n >= 10 {
      var s := NatToDecimal(n);
      assert s[..|s| - 1] == NatToDecimal(n / 10);
      DecimalRoundTrip(n / 10);
    }
  }

  /** The rendering starts with a minus sign exactly for negative numbers. */
  lemma SignMark(n: int)
    ensures LongToString(n) != [] && (LongToString(n)[0] == '-' <==> n < 0)
  {
  }

  /** Distinct ids render as distinct strings, so a message that embeds an id names that id. */
  lemma LongToStringInjective(a: int, b: int)
    requires LongToString(a) == LongToString(b)
    ensures a == b
  {
    SignMark(a);
    SignMark(b);
    if a < 0 && b < 0 {
      assert NatToDecimal(-a) == LongToString(a)[1..];
      assert NatToDecimal(-b) == LongToString(b)[1..];
      DecimalRoundTrip(-a);
      DecimalRoundTrip(-b);
    } else if 0 <= a && 0 <= b {
      DecimalRoundTrip(a);
      DecimalRoundTrip(b);
    }
  }
}

=== FILE: user_service.dfy ===
/**
 * The console variant's service: create, read, update and delete over the DAO.
 * "Not found" is an empty optional or `false`; every failure it raises itself is an
 * IllegalArgumentException whose message the model keeps verbatim, classified as
 * Invalid (empty input) or Duplicate (email already used). A DAO failure surfaces as
 * StorageError.
 */
module UserService {
  import opened Common
  import opened UserStore
  import JavaText

  const NameEmpty := "Name cannot be empty"
  const EmailEmpty := "Email cannot be empty"
  const EmailExists := "Email already exists"
  const FindByEmailFailed := "Failed to find user by email"

  function AlreadyExists(email: string): string {
    "User with email " + email + " already exists"
  }

  /**
   * createUser: the name is checked before the email, then the email must be unused;
   * only then is the user saved, and its generated id returned.
   */
  function CreateUser(s: Store, name: Option<string>, email: Option<string>, age: Option<int>): (r: Reply<int>)
    ensures JavaText.NullOrBlank(name) ==> r == Reply(Invalid(NameEmpty), s)
    ensures !JavaText.NullOrBlank(name) && JavaText.NullOrBlank(email) ==> r == Reply(Invalid(EmailEmpty), s)
    ensures r.result.Ok? <==> !JavaText.NullOrBlank(name) && !JavaText.NullOrBlank(email) && !EmailTaken(s, email)
    ensures !JavaText.NullOrBlank(name) && !JavaText.NullOrBlank(email) && EmailTaken(s, email) && !SharedEmail(s, email) ==>
              r == Reply(Duplicate(AlreadyExists(email.value)), s)
    ensures !JavaText.NullOrBlank(name) && !JavaText.NullOrBlank(email) && SharedEmail(s, email) ==>
              r == Reply(StorageError(FindByEmailFailed), s)
    ensures !r.result.Ok? ==> r.after == s
    ensures r.result.Ok? ==>
              && 1 <= r.result.value && r.result.value !in s.rows
              && r.after.rows == s.rows[r.result.value := User(name, email, age)]
    ensures EmailsUnique(s) ==> EmailsUnique(r.after)
  {
    if JavaText.NullOrTrimsEmpty(name) then Reply(Invalid(NameEmpty), s)
    else if JavaText.NullOrTrimsEmpty(email) then Reply(Invalid(EmailEmpty), s)
    else match FindByEmail(s, email.value)
      case NonUnique => Reply(StorageError(FindByEmailFailed), s)
      case Match(_) => Reply(Duplicate(AlreadyExists(email.value)), s)
      case NoMatch =>
        var (id, t) := Persist(s, User(name, email, age));
        InsertKeepsEmailsUnique(s, t, id, User(name, email, age));
        Reply(Ok(id), t)
  }

  /** getUserById: the stored user or empty; the store is only read. */
  function GetUserById(s: Store, id: int): (r: Reply<Option<Row>>)
    ensures r.after == s && r.result.Ok?
    ensures r.result.value.Some? <==> id in s.rows
    ensures r.result.value.Some? ==> r.result.value.value == Row(id, s.rows[id])
  {
    Reply(Ok(FindById(s, id)), s)
  }

  /** getAllUsers: every stored user exactly once, ascending by id; the store is only read. */
  function GetAllUsers(s: Store): (r: Reply<seq<Row>>)
    ensures r.after == s && r.result.Ok?
    ensures forall i :: 0 <= i < |r.result.value| ==>
              r.result.value[i].id in s.rows && r.result.value[i].user == s.rows[r.result.value[i].id]
    ensures forall i, j :: 0 <= i < j < |r.result.value| ==> r.result.value[i].id < r.result.value[j].id
    ensures forall id :: id in s.rows ==> Row(id, s.rows[id]) in r.result.value
  {
    Reply(Ok(FindAll(s)), s)
  }

  /**
   * updateUser: false for an unknown id. A supplied email that differs from the current one
   * is looked up first, and a different user owning it aborts the update before any field
   * changes. Otherwise every non-null argument overwrites its field and the user is merged.
   */
  function UpdateUser(s: Store, id: int, name: Option<string>, email: Option<string>, age: Option<int>): (r: Reply<bool>)
    ensures id !in s.rows ==> r == Reply(Ok(false), s)
    ensures id in s.rows ==>
              (r.result.Ok? <==> !(email.Some? && email != s.rows[id].email && EmailTaken(s, email)))
    ensures id in s.rows && email.Some? && email != s.rows[id].email && EmailTaken(s, email) && !SharedEmail(s, email) ==>
              r == Reply(Duplicate(EmailExists), s)
    ensures id in s.rows && email.Some? && email != s.rows[id].email && SharedEmail(s, email) ==>
              r == Reply(StorageError(FindByEmailFailed), s)
    ensures !r.result.Ok? ==> r.after == s
    ensures id in s.rows && r.result.Ok? ==> r.result == Ok(true) && PatchedOnly(s, r.after, id, name, email, age)
    ensures EmailsUnique(s) ==> EmailsUnique(r.after)
  {
    if id !in s.rows then Reply(Ok(false), s)
    else
      var user := s.rows[id];
      var gate := if email.Some? && email != user.email then FindByEmail(s, email.value) else NoMatch;
      if gate.NonUnique? then Reply(StorageError(FindByEmailFailed), s)
      else if gate.Match? && gate.row.id != id then Reply(Duplicate(EmailExists), s)
      else
        var newEmail := if email.Some? && email != user.email then email else user.email;
        var newName := if name.Some? then name else user.name;
        var newAge := if age.Some? then age else user.age;
        var patched := User(newName, newEmail, newAge);
        OverwriteIsPatch(s, id, name, email, age, patched);
        OverwriteKeepsEmailsUnique(s, id, patched);
        Reply(Ok(true), Overwrite(s, id, patched))
  }

  /** deleteUser: false for an unknown id; otherwise that one user is removed. */
  function DeleteUser(s: Store, id: int): (r: Reply<bool>)
    ensures r.result == Ok(id in s.rows)
    ensures r.after.rows == s.rows - {id}
    ensures id !in s.rows ==> r.after == s
  {
    if id in s.rows then Reply(Ok(true), Remove(s, id)) else Reply(Ok(false), s)
  }

  /**
   * When the supplied email is null or equal to the current one, no lookup happens:
   * the update succeeds whatever the other users' emails are.
   */
  lemma UnchangedEmailNeedsNoLookup(s1: Store, s2: Store, id: int, name: Option<string>, email: Option<string>, age: Option<int>)
    requires id in s1.rows && id in s2.rows && s1.rows[id] == s2.rows[id]
    requires email.None? || email == s1.rows[id].email
    ensures UpdateUser(s1, id, name, email, age).result == Ok(true)
    ensures UpdateUser(s2, id, name, email, age).result == Ok(true)
    ensures UpdateUser(s1, id, name, email, age).after.rows[id] == UpdateUser(s2, id, name, email, age).after.rows[id]
  {
  }

  /** Deleting the user a successful create just added gives back the original records. */
  lemma DeleteUndoesCreate(s: Store, name: Option<string>, email: Option<string>, age: Option<int>)
    requires CreateUser(s, name, email, age).result.Ok?
    ensures DeleteUser(CreateUser(s, name, email, age).after, CreateUser(s, name, email, age).result.value).result == Ok(true)
    ensures DeleteUser(CreateUser(s, name, email, age).after, CreateUser(s, name, email, age).result.value).after.rows == s.rows
  {
    var c := CreateUser(s, name, email, age);
    var id := c.result.value;
    assert id !in s.rows && c.after.rows == s.rows[id := User(name, email, age)];
    assert c.after.rows - {id} == s.rows;
  }

  /** A store holding `u` alone, under the first generated id. */
  function FirstUserOnly(u: User): (t: Store)
    ensures t.rows == map[1 := u] && t.next == 2
  {
    Table(map[1 := u], 2)
  }

  /**
   * The life of one user in an empty store: created as id 1, found, renamed with the
   * other fields left null, deleted, and then no longer found.
   */
  lemma Lifecycle(name: string, email: string, age: Option<int>, newName: string)
    requires !JavaText.IsBlank(name) && !JavaText.IsBlank(email)
    ensures CreateUser(Empty, Some(name), Some(email), age)
      == Reply(Ok(1), FirstUserOnly(User(Some(name), Some(email), age)))
    ensures GetUserById(FirstUserOnly(User(Some(name), Some(email), age)), 1).result
      == Ok(Some(Row(1, User(Some(name), Some(email), age))))
    ensures UpdateUser(FirstUserOnly(User(Some(name), Some(email), age)), 1, Some(newName), None, None)
      == Reply(Ok(true), FirstUserOnly(User(Some(newName), Some(email), age)))
    ensures DeleteUser(FirstUserOnly(User(Some(newName), Some(email), age)), 1)
      == Reply(Ok(true), Table(map[], 2))
    ensures GetUserById(Table(map[], 2), 1).result == Ok(None)
  {
    FirstCreateGetsIdOne(name, email, age);
    RenameKeepsOtherFields(FirstUserOnly(User(Some(name), Some(email), age)), 1, newName);
    assert Overwrite(FirstUserOnly(User(Some(name), Some(email), age)), 1, User(Some(newName), Some(email), age))
      == FirstUserOnly(User(Some(newName), Some(email), age));
    assert DeleteUser(FirstUserOnly(User(Some(newName), Some(email), age)), 1).after.rows == map[];
  }

  /** The first user created in an empty store gets id 1 and is the only record. */
  lemma FirstCreateGetsIdOne(name: string, email: string, age: Option<int>)
    requires !JavaText.IsBlank(name) && !JavaText.IsBlank(email)
    ensures CreateUser(Empty, Some(name), Some(email), age)
      == Reply(Ok(1), FirstUserOnly(User(Some(name), Some(email), age)))
  {
    assert !EmailTaken(Empty, Some(email));
  }

  /** Updating only the name of a stored user returns true and leaves its email and age as they were. */
  lemma RenameKeepsOtherFields(s: Store, id: int, newName: string)
    requires id in s.rows
    ensures UpdateUser(s, id, Some(newName), None, None)
      == Reply(Ok(true), Overwrite(s, id, s.rows[id].(name := Some(newName))))
  {
  }

  /** A null or whitespace-only name is rejected before the email is even looked at. */
  lemma NullNameRejectedFirst(s: Store, name: string, email: Option<string>, age: Option<int>)
    requires JavaText.IsBlank(name)
    ensures CreateUser(s, None, email, age) == Reply(Invalid(NameEmpty), s)
    ensures CreateUser(s, Some(name), email, age) == Reply(Invalid(NameEmpty), s)
  {
  }
}

=== FILE: user_service_impl.dfy ===
/**
 * The web-facing variant's service over the repository. Unknown ids and duplicate
 * emails are failures here (ResourceNotFoundException, UserAlreadyExistsException),
 * and each call runs in one transaction, so a failed call leaves the store as it was.
 */
module UserServiceImpl {
  import opened Common
  import opened UserStore
  import opened UserEntity
  import opened Dto
  import opened UserMapper
  import UserRepository
  import JavaText

  /** The conflict message; String.format renders a null email as "null". */
  function AlreadyExists(email: Option<string>): string {
    "User with email " + JavaText.ShowNullable(email) + " already exists"
  }

  function UserNotFound(id: int): string {
    "User not found with id: " + JavaText.LongToString(id)
  }

  /** The response for the user stored under `id`. */
  function Response(s: Store, id: int): UserResponse
    requires id in s.rows
  {
    UserResponse(Some(id), s.rows[id].name, s.rows[id].email, s.rows[id].age)
  }

  predicate Describes(r: UserResponse, s: Store, id: int)
    requires id in s.rows
  {
    r == Response(s, id)
  }

  /** createUser: an email already in use is a conflict; otherwise the mapped entity is saved. */
  function CreateUser(s: Store, req: UserRequest): (r: Reply<UserResponse>)
    ensures r.result.Ok? <==> !EmailTaken(s, req.email)
    ensures !r.result.Ok? ==> r == Reply(Duplicate(AlreadyExists(req.email)), s)
    ensures r.result.Ok? ==>
              && var res := r.result.value;
              && res.id.Some? && 1 <= res.id.value && res.id.value !in s.rows
              && r.after.rows == s.rows[res.id.value := User(req.name, req.email, Some(req.age))]
              && Describes(res, r.after, res.id.value)
    ensures EmailsUnique(s) ==> EmailsUnique(r.after)
  {
    if UserRepository.ExistsByEmail(s, req.email) then Reply(Duplicate(AlreadyExists(req.email)), s)
    else
      var (saved, t) := UserRepository.Save(s, ToEntity(req));
      InsertKeepsEmailsUnique(s, t, saved.id.value, Record(ToEntity(req)));
      Reply(Ok(ToResponse(saved)), t)
  }

  /** getUserById: the stored user's response, or not-found naming the id; the store is only read. */
  function GetUserById(s: Store, id: int): (r: Reply<UserResponse>)
    ensures r.after == s
    ensures r.result.Ok? <==> id in s.rows
    ensures !r.result.Ok? ==> r.result == NotFound(UserNotFound(id))
    ensures r.result.Ok? ==> Describes(r.result.value, s, id)
  {
    match UserRepository.FindById(s, id)
    case None => Reply(NotFound(UserNotFound(id)), s)
    case Some(user) => Reply(Ok(ToResponse(user)), s)
  }

  /** getAllUsers: one response per stored user, ascending by id; the store is only read. */
  function GetAllUsers(s: Store): (r: Reply<seq<UserResponse>>)
    ensures r.after == s && r.result.Ok?
    ensures forall i :: 0 <= i < |r.result.value| ==>
              r.result.value[i].id.Some? && r.result.value[i].id.value in s.rows &&
              Describes(r.result.value[i], s, r.result.value[i].id.value)
    ensures forall i, j :: 0 <= i < j < |r.result.value| ==> r.result.value[i].id.value < r.result.value[j].id.value
    ensures forall id :: id in s.rows ==> Response(s, id) in r.result.value
  {
    RespondsForEveryUser(s);
    Reply(Ok(Responses(UserRepository.FindAll(s))), s)
  }

  lemma RespondsForEveryUser(s: Store)
    ensures forall id :: id in s.rows ==> Response(s, id) in Responses(UserRepository.FindAll(s))
  {
    var es := UserRepository.FindAll(s);
    var rs := Responses(es);
    forall id | id in s.rows
      ensures Response(s, id) in rs
    {
      assert Loaded(Row(id, s.rows[id])) in es;
      var k :| 0 <= k < |es| && es[k] == Loaded(Row(id, s.rows[id]));
      assert rs[k] == Response(s, id);
    }
  }

  /** toResponse applied to each entity, in order. */
  function Responses(es: seq<Entity>): (rs: seq<UserResponse>)
    ensures |rs| == |es|
    ensures forall i :: 0 <= i < |rs| ==> rs[i] == ToResponse(es[i])
  {
    if es == [] then [] else [ToResponse(es[0])] + Responses(es[1..])
  }

  /**
   * updateUser: an unknown id is not-found. A non-null email that differs from the current
   * one and is already in use is a conflict. Otherwise the request's non-null fields are
   * copied onto the entity and it is saved under the same id.
   */
  function UpdateUser(s: Store, id: int, req: UserUpdateRequest): (r: Reply<UserResponse>)
    ensures id !in s.rows ==> r == Reply(NotFound(UserNotFound(id)), s)
    ensures id in s.rows && req.email.Some? && req.email != s.rows[id].email && EmailTaken(s, req.email) ==>
              r == Reply(Duplicate(AlreadyExists(req.email)), s)
    ensures r.result.Ok? <==>
              id in s.rows && !(req.email.Some? && req.email != s.rows[id].email && EmailTaken(s, req.email))
    ensures !r.result.Ok? ==> r.after == s
    ensures r.result.Ok? ==>
              && PatchedOnly(s, r.after, id, req.name, req.email, req.age)
              && Describes(r.result.value, r.after, id)
    ensures EmailsUnique(s) ==> EmailsUnique(r.after)
  {
    match UserRepository.FindById(s, id)
    case None => Reply(NotFound(UserNotFound(id)), s)
    case Some(user) =>
      if req.email.Some? && req.email != user.email && UserRepository.ExistsByEmail(s, req.email) then
        Reply(Duplicate(AlreadyExists(req.email)), s)
      else
        var patched := UpdateEntity(req, user);
        var (saved, t) := UserRepository.Save(s, patched);
        OverwriteIsPatch(s, id, req.name, req.email, req.age, Record(patched));
        OverwriteKeepsEmailsUnique(s, id, Record(patched));
        Reply(Ok(ToResponse(saved)), t)
  }

  /** deleteUser: an unknown id is not-found and deletes nothing; otherwise exactly that id goes. */
  function DeleteUser(s: Store, id: int): (r: Reply<()>)
    ensures r.result.Ok? <==> id in s.rows
    ensures !r.result.Ok? ==> r == Reply(NotFound(UserNotFound(id)), s)
    ensures r.result.Ok? ==> r.after.rows == s.rows - {id} && r.after.next == s.next
  {
    if !UserRepository.ExistsById(s, id) then Reply(NotFound(UserNotFound(id)), s)
    else Reply(Ok(()), UserRepository.DeleteById(s, id))
  }

  /** The user a conflicting email belongs to is never the one being updated. */
  lemma ConflictingOwnerIsAnother(s: Store, id: int, email: Option<string>)
    requires id in s.rows && email != s.rows[id].email && EmailTaken(s, email)
    ensures exists other :: other in s.rows && other != id && s.rows[other].email == email
  {
  }

  /** A not-found message names the id it was raised for. */
  lemma NotFoundNamesId(a: int, b: int)
    requires UserNotFound(a) == UserNotFound(b)
    ensures a == b
  {
    var prefix := "User not found with id: ";
    assert JavaText.LongToString(a) == UserNotFound(a)[|prefix|..];
    assert JavaText.LongToString(b) == UserNotFound(b)[|prefix|..];
    JavaText.LongToStringInjective(a, b);
  }
}

=== FILE: variants.dfy ===
/** How the console variant and the web-facing variant relate on the same store. */
module Variants {
  import opened Common
  import opened UserStore
  import opened Dto
  import JavaText
  import UserService
  import UserServiceImpl

  /**
   * Given a name and an email that are not blank, both variants accept exactly the same
   * create requests and store the same record under the same generated id.
   */
  lemma CreatesAgree(s: Store, req: UserRequest)
    requires !JavaText.NullOrBlank(req.name) && !JavaText.NullOrBlank(req.email)
    ensures var c := UserService.CreateUser(s, req.name, req.email, Some(req.age));
      var w := UserServiceImpl.CreateUser(s, req);
      && (c.result.Ok? <==> w.result.Ok?)
      && (c.result.Ok? ==> c.after == w.after && w.result.value.id == Some(c.result.value))
  {
  }

  /**
   * For a stored user, both variants reject the same email conflicts and, when they
   * succeed, leave the same store behind.
   */
  lemma {:induction false} UpdatesAgree(s: Store, id: int, req: UserUpdateRequest)
    requires id in s.rows
    ensures var c := UserService.UpdateUser(s, id, req.name, req.email, req.age);
      var w := UserServiceImpl.UpdateUser(s, id, req);
      && (EmailsUnique(s) ==> (c.result.Ok? <==> w.result.Ok?))
      && (c.result.Ok? && w.result.Ok? ==> c.after == w.after)
  {
    var c := UserService.UpdateUser(s, id, req.name, req.email, req.age);
    var w := UserServiceImpl.UpdateUser(s, id, req);
    if c.result.Ok? && w.result.Ok? {
      PatchIsDeterministic(s, c.after, w.after, id, req.name, req.email, req.age);
    }
  }

  /**
   * What the console variant reports as `false` or an empty optional, the web-facing
   * variant reports as not-found.
   */
  lemma AbsenceAgrees(s: Store, id: int, req: UserUpdateRequest)
    requires id !in s.rows
    ensures UserService.GetUserById(s, id).result == Ok(None)
    ensures UserServiceImpl.GetUserById(s, id).result.NotFound?
    ensures UserService.UpdateUser(s, id, req.name, req.email, req.age).result == Ok(false)
    ensures UserServiceImpl.UpdateUser(s, id, req).result.NotFound?
    ensures UserService.DeleteUser(s, id) == Reply(Ok(false), s)
    ensures UserServiceImpl.DeleteUser(s, id).result.NotFound?
  {
  }

  /**
   * For a stored id, both variants delete it: `true` in the console variant, success in
   * the web-facing one, and the same store afterwards.
   */
  lemma DeletesAgree(s: Store, id: int)
    requires id in s.rows
    ensures UserService.DeleteUser(s, id).result == Ok(true)
    ensures UserServiceImpl.DeleteUser(s, id).result == Ok(())
    ensures UserService.DeleteUser(s, id).after == UserServiceImpl.DeleteUser(s, id).after
  {
  }
}
